=== FILE: README.md ===
# Modmail staff relay and snippet routes, modelled in Dafny

This project models two parts of a Discord modmail bot and proves properties about them.

The main part is `sendStaffThreadMessage`. It relays a staff member's reply from a
guild's modmail thread to the member's direct messages. It builds two sets of message
options: the copy posted in the staff thread and the copy sent to the user. It
renders them as plain text ("simple mode") or as an embed ("rich mode"), and removes
the staff member's identity from the user copy when the reply is anonymous. An edit
of an existing reply rewrites both messages in place. A new reply is posted in the
thread and then sent to the user. Only after both sends does it increment the
thread's `lastLocalThreadMessageId`. It stores a `threadMessage` record under that
number and finally edits the staff message so that it shows the number (the "reply
ID").

The secondary part is the API's snippet routes. `PUT /modmail/v1/guilds/:guildId/snippets/`
creates a canned reply and registers a matching guild slash command.
`PATCH .../snippets/:snippetId` updates a snippet and logs the content it replaced.

| file | module | what it holds |
|---|---|---|
| `Wrappers.dfy` | `Wrappers` | `Option` and `Result` |
| `Decimal.dfy` | `Decimal` | decimal text of numbers (`toString`) and `Number.parseInt(s, 10)`, with their round trip |
| `Payloads.dfy` | `Payloads` | the payload renderer, anonymous redaction, and stamping the reply ID onto the staff copy |
| `Relay.dfy` | `Relay` | one relay call as a state transition over the thread counters and records; the per-thread numbering invariant |
| `SnippetBodies.dfy` | `SnippetBodies` | the strict body schemas of both routes, with encode/validate round trips |
| `Snippets.dfy` | `Snippets` | the snippet table, the update history, and the create and update handlers |

Calls to Discord and to the database are not executed. Each external result the
code depends on is a parameter of the transition:
- the id of the message posted in the thread;
- whether the direct message was delivered, and with which id;
- the id of the registered command, or `None` if the call threw;
- whether the command patch went through.

Each transition returns the list of Discord calls it makes, in order.

## Behaviour reproduced as written

- **Shared embed.** `userOptions` is a shallow copy of `options`, so both copies
  share one embed object. In rich mode with `anon`, `setFooter(null)` therefore
  clears the footer of the staff copy as well. The staff message is first posted
  without a footer and gets one only when the reply ID is stamped. An edit of an
  anonymous rich reply rewrites the staff message with no footer at all. The
  lemma `Payloads.RichAnonEditDropsFooter` shows this. A reading in which the
  staff copy always keeps its footer differs from the code; the model follows the
  code.
- **Tag placement.** In simple mode a new reply is stamped as
  `` `n` **(Guild Team) tag:** text``, with the tag outside the bold part. An edit
  renders `` **`n` (Guild Team) tag:** text``, with the tag inside it
  (`Payloads.SimpleStampDiffersFromEdit`).
- **Refused DM.** When the direct message is refused, the notice is posted and the
  call returns. No number is allocated and no record is written. The staff message
  is never stamped. Allocation happens after both sends, so a refused DM leaves no
  gap in the numbering.
- **Missing thread.** If the thread row does not exist, the counter update throws
  inside the transaction. Both sends have already happened, and nothing is stored
  (`ThreadMissing`).
- **Update lookup.** The update route finds the snippet by its id alone. The
  `guildId` in the path only addresses the command patch. A rename is not checked
  against the guild's other names (`Snippets.RenameCanDuplicateName`).

## Model

| member | source | states |
|---|---|---|
| `Decimal.Show` | src/util/sendStaffThreadMessage.ts:130 | the printed reply ID is a non-empty string of decimal digits with no leading zero, one character exactly for numbers below ten |
| `Decimal.ValueOfShow` | src/util/sendStaffThreadMessage.ts:130 | reading the printed digits back gives the number again |
| `Decimal.ParseInt` | packages/api/src/routes/updateSnippet.ts:43-46 | `parseInt` yields NaN (`None`) exactly when no digit follows the optional sign; the sign decides the sign of the result |
| `Decimal.ParseShow` | packages/api/src/routes/updateSnippet.ts:43 | parsing a printed number, followed by anything that does not start with a digit, yields the number |
| `Decimal.ShowInjective` | src/util/sendStaffThreadMessage.ts:130 | different reply IDs print differently |
| `Payloads.Render` | src/util/sendStaffThreadMessage.ts:44-86 | user copy equals staff copy unless anonymous in simple mode, where only the text changes to `**<guild> Team:** <content>`; the simple-mode staff text is the attributed text of lines 46-50; simple mode clears `files` and `attachments` without an attachment and sends exactly `[attachment]` with one; rich mode sends one embed whose description is the content, whose author is the guild team when anonymous and the display name otherwise, and whose shared footer is gone exactly when anonymous |
| `Payloads.SimpleTextExact` | src/util/sendStaffThreadMessage.ts:45-50 | the simple-mode staff text is exactly `**`, then `` `n` `` and a space when a reply ID `n` is given, then `(Anonymous) ` exactly when anonymous, then `(<guild> Team) <tag>:** <content>` |
| `Payloads.SimpleTextReplyTag` | src/util/sendStaffThreadMessage.ts:46-47 | the inline-code reply tag opens the bold part exactly when a reply ID is given, and the ID parses back from it |
| `Payloads.FooterReplyId` | src/util/sendStaffThreadMessage.ts:62-65 | the footer is `<tag> (<id>)` without a reply ID; with one it is `Reply ID: <n> | ` followed by that same text, and the ID parses back from it |
| `Payloads.AnonUserCopyHidesStaff` | src/util/sendStaffThreadMessage.ts:76-86 | an anonymous user copy is the same for every staff member and every reply ID of the same guild |
| `Payloads.CopiesShareBody` | src/util/sendStaffThreadMessage.ts:45-86 | staff and user copies carry the same reply body: both texts end with it, or both embeds describe it |
| `Payloads.SimpleStampCarriesReplyId` | src/util/sendStaffThreadMessage.ts:128-130 | stamping in simple mode changes only the text, which becomes `` `id` `` and a space before the sent text, and the ID parses back |
| `Payloads.RichStampCarriesReplyId` | src/util/sendStaffThreadMessage.ts:131-138 | stamping in rich mode changes only the footer: its text is `Reply ID: <id> | <tag> (<user id>)`, the ID parses back from it, and its icon is the staff member's avatar |
| `Payloads.StampReplyId` | src/util/sendStaffThreadMessage.ts:128-138 | simple mode changes only the text, which keeps the sent text after a space and opens with a backtick followed by the ID; rich mode changes only the first embed's footer, to `Reply ID: <id> | <tag> (<user id>)` with the staff avatar, leaving one embed |
| `Payloads.RichStampMatchesEdit` | src/util/sendStaffThreadMessage.ts:58-71 | for a non-anonymous rich reply, the stamped staff copy is exactly what an edit of that reply ID renders |
| `Payloads.RichAnonEditDropsFooter` | src/util/sendStaffThreadMessage.ts:76-91 | for an anonymous rich reply, the stamped copy has a footer but the edit renders the staff copy without one |
| `Payloads.SimpleStampDiffersFromEdit` | src/util/sendStaffThreadMessage.ts:45-50 | a stamped simple text opens with the backtick, an edited one with `**` followed by the backtick |
| `Relay.Relay` | src/util/sendStaffThreadMessage.ts:57-140 | a rich reply whose body is empty or longer than 4096 characters fails before any call; edit path: guild message edited before the user message, nothing stored; new path: staff copy posted then user copy sent; refused DM: notice posted, store unchanged; missing thread row: both sends and nothing else, store unchanged; the store changes exactly when a reply is posted, by incrementing the thread's counter and appending one record whose number is the new counter, with both message ids, staff id and anon flag from the sends and the inputs, followed by an edit of the posted staff message with exactly the payload `StampReplyId` makes of the posted staff copy |
| `Relay.RelayKeepsConsistent` | src/util/sendStaffThreadMessage.ts:106-126 | one call keeps every thread's recorded numbers equal to 1..counter in creation order |
| `Relay.RunKeepsConsistent` | src/util/sendStaffThreadMessage.ts:106-126 | any series of calls keeps that invariant |
| `Relay.IssuedInCommitOrder` | src/util/sendStaffThreadMessage.ts:107-117 | under the invariant, a thread's record numbers lie in 1..counter and strictly increase in creation order |
| `Relay.ReplyIdsUnique` | src/util/sendStaffThreadMessage.ts:106-126 | from freshly opened threads, after any calls, no number is issued twice within a thread and the numbers issued are exactly 1..counter |
| `Relay.PostedStaffMessageShowsRecordId` | src/util/sendStaffThreadMessage.ts:128-140 | after a post, the final edit targets the posted staff message; in simple mode its payload is the posted copy with `` `id` `` and a space in front of the text, in rich mode the posted copy with only the footer replaced by `Reply ID: id | tag (user id)` and the staff avatar; the stored number parses back |
| `Relay.RefusedDmLeavesStaffMessage` | src/util/sendStaffThreadMessage.ts:99-104 | a refused DM makes no edit and stores nothing |
| `Relay.FirstSimpleReplyScenario` | src/util/sendStaffThreadMessage.ts:45-50 | the first simple reply is posted as `**(Acme Team) Alice#0001:** hello`, stored as number 1, and edited to open with `` `1` `` |
| `SnippetBodies.ParseCreateBody` | packages/api/src/routes/createSnippet.ts:19-23 | a create body is accepted exactly when it has no key besides `name`, `content`, `createdById`, a name of length 1..32, a content of length 1..1900 and a snowflake creator, and it is read field by field |
| `SnippetBodies.CreateBodyRoundTrip` | packages/api/src/routes/createSnippet.ts:19-23 | every well-formed create body, sent as JSON, validates to itself |
| `SnippetBodies.CreateBodyAcceptedIsEncoding` | packages/api/src/routes/createSnippet.ts:19-23 | an accepted create body is exactly the encoding of what it was read as |
| `SnippetBodies.ParseUpdateBody` | packages/api/src/routes/updateSnippet.ts:16-20 | an update body is accepted exactly when it has no extra key, an optional name of length 1..32, an optional content of length 1..1900 and a snowflake updater; absent fields read as absent |
| `SnippetBodies.UpdateBodyRoundTrip` | packages/api/src/routes/updateSnippet.ts:16-20 | every well-formed update body, sent as JSON, validates to itself |
| `SnippetBodies.UpdateBodyAcceptedIsEncoding` | packages/api/src/routes/updateSnippet.ts:16-20 | an accepted update body is exactly the encoding of what it was read as |
| `Snippets.SnippetCommand` | packages/api/src/routes/createSnippet.ts:56-67 | the registered command has the snippet's name, permissions `'0'` and exactly one boolean option `anon` |
| `Snippets.Create` | packages/api/src/routes/createSnippet.ts:43-88 | a name already used in the guild is a bad request with no call and no write; otherwise the command is registered, and on success the snippet stored under the next id carries name, content and creator from the body, guild from the path and command id from the registration, nothing else changes, and the reply is 201 with the snippet |
| `Snippets.CreateRoute` | packages/api/src/routes/createSnippet.ts:19-33 | a refused body costs no call and no write; a created snippet holds exactly the fields of the JSON body that was sent, in the guild of the path |
| `Snippets.CreateRouteOnEncodedBody` | packages/api/src/routes/createSnippet.ts:19-33 | a well-formed create body sent as JSON reaches the handler as it was |
| `Snippets.CreateRouteRejects` | packages/api/src/routes/createSnippet.ts:19-33 | a JSON body with an extra key, or a name, content or creator that is missing, not a string or out of bounds, is refused with no call and the registry unchanged |
| `Snippets.CreateKeepsInvariants` | packages/api/src/routes/createSnippet.ts:46-83 | create keeps ids consistent and at most one snippet per guild and name |
| `Snippets.CreatedNameIsTaken` | packages/api/src/routes/createSnippet.ts:46-54 | after a create, a second create of the same name in the guild is refused |
| `Snippets.Apply` | packages/api/src/routes/updateSnippet.ts:66-69 | an update sets name and content when the body has them and keeps them otherwise; id, guild, creator and command never change |
| `Snippets.Update` | packages/api/src/routes/updateSnippet.ts:40-87 | an unparsable id is a bad request and an unknown id is not found, both with no call and no write; otherwise the command is patched, and on success only the found snippet changes, exactly one history row with its old content and the updater is appended, and the reply is 200 with the updated snippet |
| `Snippets.UpdateRoute` | packages/api/src/routes/updateSnippet.ts:16-30 | a refused body costs no call and no write; after a successful update the body had only schema keys, the snippet holds the name and content it sent, and the new history row names its `updatedById` |
| `Snippets.UpdateRouteOnEncodedBody` | packages/api/src/routes/updateSnippet.ts:16-30 | a well-formed update body sent as JSON reaches the handler as it was |
| `Snippets.UpdateRouteRejects` | packages/api/src/routes/updateSnippet.ts:16-30 | a JSON body with an extra key, a present name or content that is not a string of allowed length, or a missing or invalid updater is refused with no lookup, call or write |
| `Snippets.UpdateKeepsWellFormed` | packages/api/src/routes/updateSnippet.ts:61-82 | update keeps ids consistent and every history row pointing at an existing snippet |
| `Snippets.UpdateIgnoresPathGuild` | packages/api/src/routes/updateSnippet.ts:48-57 | whichever guild the path names, the same command of the snippet found by id is patched, addressed to that guild; for the same outcome of that patch, the path's guild changes neither the stored result nor the response |
| `Snippets.UpdateLogsPreviousContent` | packages/api/src/routes/updateSnippet.ts:71-80 | the new history row names the snippet, holds the content it had just before, and the updater |
| `Snippets.RenameCanDuplicateName` | packages/api/src/routes/updateSnippet.ts:61-70 | renaming a snippet to another snippet's name in the same guild succeeds and breaks name uniqueness |

## Left out

- The interaction acknowledgement and its delayed `deleteReply` (sendStaffThreadMessage.ts:89-90, 96-97). Their messages are not modelled, and the model assumes the acknowledgement succeeds. It is awaited, so a rejection would end the call: at line 89 before either message is edited, at line 96 after the staff message is posted but before any DM, record or stamp.
- The text of the DM-failure notice. It comes from `i18next` and is kept as the opaque key `common.errors.dm_fail`.
- Embed colour, avatar URLs and icon URLs. They are opaque values.
- Failure of `channel.send`, of message edits and of the interaction acknowledgement. Only the direct-message outcome, the presence of the thread row, the command registration and the command patch have modelled failure outcomes.
- Concurrency. The code relies on the database's atomic `increment` inside `$transaction`. Calls are modelled one after another, and a transaction is one atomic step.
- Columns not shown in the code: timestamps and the history row's own id.
- Database constraints, for example a unique index on guild and name. The schema is not part of this model.
- `snowflakeSchema` is not part of this model. Its test is a parameter `isSnowflake` of the body schemas.
- What the route framework answers for an invalid body. It is modelled as the error `InvalidBody`.
- HTTP headers and JSON serialisation. A response is a status and a snippet.
- String lengths are sequence lengths, not UTF-16 code units.
- Payloads.Render: of the embed builder's checks only the description length (1..4096) is modelled, as the `InvalidEmbed` outcome of `Relay.Relay`. The footer text limit (2048), the author name limit (256) and the 6000-character embed total are not, so a rich reply that breaks only those is still rendered and sent.
- Decimal.Show: reply IDs and thread counters are unbounded natural numbers. The code prints JavaScript numbers, which switch to exponent form from 10^21 and round beyond 2^53, and stores them in a bounded database integer column; a per-thread counter does not reach those sizes.
- Decimal.ParseInt: leading whitespace is not skipped. Numbers beyond 2^53 are exact rather than rounded.

=== FILE: Decimal.dfy ===
/**
 Decimal text for natural numbers: `Number.prototype.toString()` on the
 non-negative integers the relay prints (reply IDs), and `Number.parseInt(s, 10)`
 as the snippet route uses it to read a path segment.
 */
module Decimal {
  import opened Wrappers

  predicate IsDigit(c: char) {
    '0' <= c <= '9'
  }

  predicate AllDigits(s: string) {
    forall i :: 0 <= i < |s| ==> IsDigit(s[i])
  }

  function DigitValue(c: char): (d: nat)
    requires IsDigit(c)
    ensures d < 10
  {
    (c as int) - ('0' as int)
  }

  function DigitChar(d: nat): (c: char)
    requires d < 10
    ensures IsDigit(c) && DigitValue(c) == d
  {
    (('0' as int) + d) as char
  }

  /** The decimal rendering of `n`, without sign or leading zeros. */
  function Show(n: nat): (s: string)
    ensures 0 < |s| && AllDigits(s)
    ensures s[0] == '0' ==> n == 0
    ensures n < 10 <==> |s| == 1
  {
    if n < 10 then [DigitChar(n)] else Show(n / 10) + [DigitChar(n % 10)]
  }

  /** The number a string of decimal digits denotes (most significant first). */
  function ValueOf(s: string): nat
    requires AllDigits(s)
  {
    if |s| == 0 then 0 else ValueOf(s[..|s| - 1]) * 10 + DigitValue(s[|s| - 1])
  }

  /** Reading back what `Show` printed gives the number again. */
  lemma {:induction false} ValueOfShow(n: nat)
    ensures ValueOf(Show(n)) == n
  {
    if n >= 10 {
      var s := Show(n);
      assert s[..|s| - 1] == Show(n / 10);
      ValueOfShow(n / 10);
    }
  }

  /** Length of the longest prefix of `s` made of decimal digits. */
  function DigitRun(s: string): (k: nat)
    ensures k <= |s|
    ensures AllDigits(s[..k])
    ensures k < |s| ==> !IsDigit(s[k])
  {
    if |s| == 0 || !IsDigit(s[0]) then 0 else 1 + DigitRun(s[1..])
  }

  /** The text after an optional leading `+` or `-`, and the sign it stands for. */
  function SplitSign(s: string): (r: (int, string))
    ensures r.0 == 1 || r.0 == -1
    ensures r.0 == -1 <==> 0 < |s| && s[0] == '-'
    ensures 0 < |s| && (s[0] == '-' || s[0] == '+') ==> r.1 == s[1..]
    ensures !(0 < |s| && (s[0] == '-' || s[0] == '+')) ==> r.1 == s
  {
    if 0 < |s| && s[0] == '-' then (-1, s[1..])
    else if 0 < |s| && s[0] == '+' then (1, s[1..])
    else (1, s)
  }

  /**
   `Number.parseInt(s, 10)`: an optional sign followed by the longest run of
   decimal digits; anything after the run is ignored, and no digits at all is
   `NaN` (here `None`).
   */
  function ParseInt(s: string): (r: Option<int>)
    ensures r.None? <==> DigitRun(SplitSign(s).1) == 0
    ensures r.Some? && SplitSign(s).0 == 1 ==> r.value >= 0
    ensures r.Some? && SplitSign(s).0 == -1 ==> r.value <= 0
  {
    var (sign, rest) := SplitSign(s);
    var k := DigitRun(rest);
    if k == 0 then None else Some(sign * ValueOf(rest[..k]))
  }

  /** A run of digits followed by a non-digit is read up to the non-digit. */
  lemma {:induction false} DigitRunStopsAfter(d: string, rest: string)
    requires AllDigits(d)
    requires |rest| == 0 || !IsDigit(rest[0])
    ensures DigitRun(d + rest) == |d|
  {
    if |d| > 0 {
      assert (d + rest)[1..] == d[1..] + rest;
      DigitRunStopsAfter(d[1..], rest);
    }
  }

  /**
   Round trip: parsing what `Show` printed, followed by anything that does not
   start with a digit, yields the number back.
   */
  lemma ParseShow(n: nat, rest: string)
    requires |rest| == 0 || !IsDigit(rest[0])
    ensures ParseInt(Show(n) + rest) == Some(n)
  {
    var s := Show(n) + rest;
    assert s[0] == Show(n)[0];
    assert SplitSign(s) == (1, s);
    DigitRunStopsAfter(Show(n), rest);
    assert s[..|Show(n)|] == Show(n);
    ValueOfShow(n);
  }

  /** `Show` is injective: different numbers print differently. */
  lemma ShowInjective(m: nat, n: nat)
    requires Show(m) == Show(n)
    ensures m == n
  {
    ValueOfShow(m);
    ValueOfShow(n);
  }
}

=== FILE: Payloads.dfy ===
/**
 The payload renderer of `sendStaffThreadMessage`: from one staff reply it
 builds the message options posted in the staff thread and the options sent to
 the user's direct messages, in simple (plain text) or rich (embed) mode, with
 anonymous redaction applied to the user copy.
 */
module Payloads {
  import opened Wrappers
  import opened Decimal

  /** URLs (avatars, icons, attachment locations) are opaque text. */
  type Url = string

  /** A file attached to the staff member's command; only its URL is looked at. */
  datatype Attachment = Attachment(url: Url)

  /** The embed colour is always Discord's blurple. */
  datatype Color = Blurple

  datatype Footer = Footer(text: string, iconUrl: Url)

  datatype Author = Author(name: string, iconUrl: Option<Url>)

  datatype Embed = Embed(
    color: Color,
    description: string,
    image: Option<Url>,
    footer: Option<Footer>,
    author: Author)

  /**
   Message options as discord.js takes them for `send` and `edit`; an absent
   field is `None` (left untouched by an edit).
   */
  datatype Payload = Payload(
    content: Option<string>,
    files: Option<seq<Attachment>>,
    attachments: Option<seq<Attachment>>,
    embeds: Option<seq<Embed>>)

  /** What the renderer reads of the acting staff member and their guild. */
  datatype Staff = Staff(
    tag: string,
    userId: string,
    displayName: string,
    userAvatarUrl: Url,
    memberAvatarUrl: Url,
    guildName: string,
    guildIconUrl: Option<Url>)

  /** One reply to render; `replyId` is present when an existing reply is edited. */
  datatype RenderRequest = RenderRequest(
    content: string,
    attachment: Option<Attachment>,
    staff: Staff,
    anon: bool,
    simpleMode: bool,
    replyId: Option<nat>)

  /** The options posted in the staff thread and the options sent to the user. */
  datatype Rendered = Rendered(staff: Payload, user: Payload)

  /** Markdown bold, as `bold` of @discordjs/builders writes it. */
  function Bold(s: string): string {
    "**" + s + "**"
  }

  /** Markdown inline code, as `inlineCode` of @discordjs/builders writes it. */
  function InlineCode(s: string): string {
    "`" + s + "`"
  }

  function TeamName(guildName: string): string {
    guildName + " Team"
  }

  /** The reply-ID tag that opens an edited simple-mode attribution. */
  function ReplyTag(replyId: Option<nat>): string {
    if replyId.Some? then InlineCode(Show(replyId.value)) + " " else ""
  }

  /** The simple-mode attribution after its optional reply-ID tag; it opens with `(`. */
  function AttributionRest(req: RenderRequest): (rest: string)
    ensures |rest| > 0 && rest[0] == '('
  {
    (if req.anon then "(Anonymous) " else "")
    + "(" + TeamName(req.staff.guildName) + ") " + req.staff.tag + ":"
  }

  /** The bold attribution of a simple-mode staff message, without its markers. */
  function SimpleAttribution(req: RenderRequest): string {
    ReplyTag(req.replyId) + AttributionRest(req)
  }

  /** The simple-mode staff text: bold attribution, a space, the reply body. */
  function SimpleStaffText(req: RenderRequest): string {
    Bold(SimpleAttribution(req)) + " " + req.content
  }

  /** The simple-mode text the user sees for an anonymous reply. */
  function AnonUserText(req: RenderRequest): string {
    Bold(TeamName(req.staff.guildName) + ":") + " " + req.content
  }

  /** The rich-mode footer text: optional `Reply ID: n | `, then tag and user id. */
  function FooterText(replyId: Option<nat>, staff: Staff): string {
    (if replyId.Some? then "Reply ID: " + Show(replyId.value) + " | " else "")
    + staff.tag + " (" + staff.userId + ")"
  }

  /** The longest description the embed builder accepts. */
  const DescriptionMax: nat := 4096

  /**
   Whether the options can be built at all: in rich mode the embed builder
   refuses a description that is empty or longer than `DescriptionMax`
   before anything is sent; simple mode builds no embed.
   */
  predicate Buildable(req: RenderRequest) {
    req.simpleMode || 0 < |req.content| <= DescriptionMax
  }

  /** The embed built in rich mode, before any redaction. */
  function RichEmbed(req: RenderRequest): Embed {
    Embed(
      Blurple,
      req.content,
      if req.attachment.Some? then Some(req.attachment.value.url) else None,
      Some(Footer(FooterText(req.replyId, req.staff), req.staff.userAvatarUrl)),
      if req.anon then Author(TeamName(req.staff.guildName), req.staff.guildIconUrl)
      else Author(req.staff.displayName, Some(req.staff.memberAvatarUrl)))
  }

  /** Options carrying one embed and nothing else. */
  function EmbedPayload(e: Embed): Payload {
    Payload(None, None, None, Some([e]))
  }

  /**
   The simple-mode options: the staff text, the attachment as the only file,
   and without an attachment empty file and attachment lists, so that an edit
   clears what an earlier version carried.
   */
  function SimplePayload(req: RenderRequest): Payload {
    if req.attachment.Some? then
      Payload(Some(SimpleStaffText(req)), Some([req.attachment.value]), None, None)
    else
      Payload(Some(SimpleStaffText(req)), Some([]), Some([]), None)
  }

  /**
   Both payloads. The user options are a shallow copy of the staff options, so
   in rich mode the two share one embed object: clearing its footer for an
   anonymous reply clears it on the staff copy as well. The staff copy is
   returned here in that state, which is the state it is sent or edited with.
   */
  function Render(req: RenderRequest): (r: Rendered)
    // redaction touches the user copy only when anonymous, and never in rich mode
    ensures !req.anon ==> r.user == r.staff
    ensures !req.simpleMode ==> r.user == r.staff
    ensures req.anon && req.simpleMode ==>
      r.user == r.staff.(content := Some("**" + req.staff.guildName + " Team:** " + req.content))
    // simple mode: the attributed staff text only, with the attachment as the sole file or both lists cleared
    ensures req.simpleMode ==> r.staff.content == Some(SimpleStaffText(req)) && r.staff.embeds.None?
    ensures req.simpleMode && req.attachment.None? ==>
      r.staff.files == Some([]) && r.staff.attachments == Some([])
    ensures req.simpleMode && req.attachment.Some? ==>
      r.staff.files == Some([req.attachment.value]) && r.staff.attachments.None?
    // rich mode: exactly one embed and nothing else
    ensures !req.simpleMode ==>
      && r.staff.content.None? && r.staff.files.None? && r.staff.attachments.None?
      && r.staff.embeds.Some? && |r.staff.embeds.value| == 1
    ensures !req.simpleMode ==>
      var e := r.staff.embeds.value[0];
      && e.description == req.content
      && (e.image.Some? <==> req.attachment.Some?)
      && (req.attachment.Some? ==> e.image == Some(req.attachment.value.url))
      && e.author.name == (if req.anon then req.staff.guildName + " Team" else req.staff.displayName)
      // the shared embed keeps its footer exactly when the reply is not anonymous
      && (e.footer.None? <==> req.anon)
      && (!req.anon ==> e.footer == Some(Footer(FooterText(req.replyId, req.staff), req.staff.userAvatarUrl)))
  {
    if req.simpleMode then
      var staff := SimplePayload(req);
      var user := if req.anon then staff.(content := Some(AnonUserText(req))) else staff;
      assert AnonUserText(req) == "**" + req.staff.guildName + " Team:** " + req.content;
      Rendered(staff, user)
    else
      var embed := RichEmbed(req);
      var shared := if req.anon then embed.(footer := None) else embed;
      Rendered(EmbedPayload(shared), EmbedPayload(shared))
  }

  /**
   The staff options once the reply ID is known: simple mode puts the inline
   code tag and a space in front of the text, rich mode sets the footer to
   `Reply ID: id | tag (user id)` on the (shared) embed.
   */
  function StampReplyId(staff: Payload, req: RenderRequest, id: nat): (r: Payload)
    requires req.simpleMode ==> staff.content.Some?
    requires !req.simpleMode ==> staff.embeds.Some? && |staff.embeds.value| > 0
    // simple mode: only the text changes; it gains a readable `id` tag in front
    ensures req.simpleMode ==>
      && r == staff.(content := r.content) && r.content.Some?
      && |r.content.value| > |staff.content.value| + 3
      && r.content.value[0] == '`'
      && ParseInt(r.content.value[1..]) == Some(id)
      && r.content.value[|r.content.value| - |staff.content.value| - 1..] == " " + staff.content.value
    // rich mode: only the first embed's footer changes, and it names the reply ID and the staff member
    ensures !req.simpleMode ==>
      && r == staff.(embeds := r.embeds) && r.embeds.Some? && |r.embeds.value| == 1
      && r.embeds.value[0] == staff.embeds.value[0].(footer := r.embeds.value[0].footer)
      && r.embeds.value[0].footer.Some?
      && r.embeds.value[0].footer.value.iconUrl == req.staff.userAvatarUrl
      && r.embeds.value[0].footer.value.text == "Reply ID: " + Show(id) + " | " + FooterText(None, req.staff)
      && ParseInt(r.embeds.value[0].footer.value.text[10..]) == Some(id)
  {
    if req.simpleMode then
      StampTagParses(id, staff.content.value);
      staff.(content := Some(InlineCode(Show(id)) + " " + staff.content.value))
    else
      FooterReplyId(Some(id), req.staff);
      var e := staff.embeds.value[0].(footer := Some(Footer(FooterText(Some(id), req.staff), req.staff.userAvatarUrl)));
      staff.(embeds := Some([e]))
  }

  /** The inline-code tag put in front of a text can be read back, and the text follows it. */
  lemma StampTagParses(id: nat, x: string)
    ensures var t := InlineCode(Show(id)) + " " + x;
      && |t| > |x| + 3
      && t[0] == '`'
      && ParseInt(t[1..]) == Some(id)
      && t[|t| - |x| - 1..] == " " + x
  {
    var tail := "` " + x;
    PrefixTagSplit(Show(id), x);
    var t := "`" + (Show(id) + tail);
    assert InlineCode(Show(id)) + " " + x == t;
    assert t[1..] == Show(id) + tail;
    assert t[|t| - |x| - 1..] == " " + x;
    ParseShow(id, tail);
  }

  // ---------------------------------------------------------------------------
  // Properties of the rendered text

  lemma SimpleTextSplit(req: RenderRequest)
    ensures req.replyId.None? ==>
      SimpleStaffText(req) == "**" + (AttributionRest(req) + "** " + req.content)
    ensures req.replyId.Some? ==>
      SimpleStaffText(req) == "**`" + (Show(req.replyId.value) + ("` " + (AttributionRest(req) + "** " + req.content)))
  {
    var rest := AttributionRest(req);
    BoldSplit(ReplyTag(req.replyId), rest, req.content);
    if req.replyId.Some? {
      TagSplit(Show(req.replyId.value), rest + "** " + req.content);
    } else {
      assert ReplyTag(req.replyId) + (rest + "** " + req.content) == rest + "** " + req.content;
    }
  }

  /**
   The exact simple-mode staff text: after the bold marker and the optional
   reply-ID tag comes `(Anonymous) ` exactly when the reply is anonymous, then
   the guild's team in parentheses, the staff tag, a colon, the closing marker
   and the body.
   */
  lemma SimpleTextExact(req: RenderRequest)
    ensures var g := req.staff.guildName;
      var tail := " Team) " + req.staff.tag + ":** " + req.content;
      var t := SimpleStaffText(req);
      && (req.replyId.None? && req.anon ==> t == "**(Anonymous) (" + g + tail)
      && (req.replyId.None? && !req.anon ==> t == "**(" + g + tail)
      && (req.replyId.Some? && req.anon ==> t == "**`" + Show(req.replyId.value) + "` (Anonymous) (" + g + tail)
      && (req.replyId.Some? && !req.anon ==> t == "**`" + Show(req.replyId.value) + "` (" + g + tail)
  {
    var g := req.staff.guildName;
    var tail := " Team) " + req.staff.tag + ":** " + req.content;
    var open := if req.anon then "(Anonymous) (" else "(";
    AttributionTail(req);
    SimpleTextSplit(req);
    if req.replyId.None? {
      Glue("**", open, g, tail);
      if req.anon {
        assert "**" + open == "**(Anonymous) (";
      } else {
        assert "**" + open == "**(";
      }
    } else {
      TagGlue(Show(req.replyId.value), open, g, tail);
      if req.anon {
        assert "` " + open == "` (Anonymous) (";
      } else {
        assert "` " + open == "` (";
      }
    }
  }

  /** The attribution after the reply-ID tag, closed and followed by the body. */
  lemma AttributionTail(req: RenderRequest)
    ensures AttributionRest(req) + "** " + req.content
         == (if req.anon then "(Anonymous) (" else "(") + req.staff.guildName
            + (" Team) " + req.staff.tag + ":** " + req.content)
  {
    var pre := if req.anon then "(Anonymous) " else "";
    assert pre + "(" == (if req.anon then "(Anonymous) (" else "(");
    Regroup(pre + "(", req.staff.guildName, " Team", ") ", "");
    assert AttributionRest(req) == pre + "(" + req.staff.guildName + (" Team) " + req.staff.tag + ":");
  }

  /**
   The reply-ID tag opens the bold part of the simple-mode staff text exactly
   when a reply ID is given, and the ID can be read back from it.
   */
  lemma SimpleTextReplyTag(req: RenderRequest)
    ensures var t := SimpleStaffText(req);
      && |t| > 3
      && (req.replyId.Some? <==> t[2] == '`')
      && (req.replyId.Some? ==> ParseInt(t[3..]) == Some(req.replyId.value))
  {
    var t := SimpleStaffText(req);
    SimpleTextSplit(req);
    var after := AttributionRest(req) + "** " + req.content;
    if req.replyId.Some? {
      var n := Show(req.replyId.value);
      var tail := "` " + after;
      assert t[3..] == n + tail;
      ParseShow(req.replyId.value, tail);
    } else {
      assert t[2] == after[0];
    }
  }

  /**
   The rich-mode footer is just the tag and user id without a reply ID; with
   one it is `Reply ID: `, the ID, ` | ` and then that same text, and the ID
   can be read back from it.
   */
  lemma FooterReplyId(replyId: Option<nat>, staff: Staff)
    ensures var t := FooterText(replyId, staff);
      && (replyId.None? ==> t == staff.tag + " (" + staff.userId + ")")
      && (replyId.Some? ==> t == "Reply ID: " + Show(replyId.value) + " | " + FooterText(None, staff))
      && (replyId.Some? ==> |t| > 10 && t[..10] == "Reply ID: " && ParseInt(t[10..]) == Some(replyId.value))
  {
    if replyId.Some? {
      var t := FooterText(replyId, staff);
      var n := Show(replyId.value);
      var base := FooterText(None, staff);
      var tail := " | " + base;
      assert base == staff.tag + " (" + staff.userId + ")";
      Regroup("Reply ID: " + n + " | ", staff.tag, " (", staff.userId, ")");
      assert t == "Reply ID: " + n + " | " + base;
      assert t == "Reply ID: " + (n + tail);
      assert t[10..] == n + tail;
      ParseShow(replyId.value, tail);
    }
  }

  // ---------------------------------------------------------------------------
  // Redaction and the reply-ID edit

  /**
   An anonymous user copy does not depend on who the staff member is, nor on
   the reply ID: two requests that differ only in those render the same user
   payload, provided the guild name and icon agree.
   */
  lemma AnonUserCopyHidesStaff(req1: RenderRequest, req2: RenderRequest)
    requires req1.anon && req2.anon
    requires req1.content == req2.content && req1.attachment == req2.attachment
    requires req1.simpleMode == req2.simpleMode
    requires req1.staff.guildName == req2.staff.guildName
    requires req1.staff.guildIconUrl == req2.staff.guildIconUrl
    ensures Render(req1).user == Render(req2).user
  {
  }

  /**
   Both copies carry the same reply body: in simple mode both texts end with a
   space and the body, in rich mode both embeds have the body as description.
   */
  lemma CopiesShareBody(req: RenderRequest)
    ensures var r := Render(req);
      if req.simpleMode then
        && r.staff.content.Some? && r.user.content.Some?
        && |r.staff.content.value| > |req.content| && |r.user.content.value| > |req.content|
        && r.staff.content.value[|r.staff.content.value| - |req.content| - 1..] == " " + req.content
        && r.user.content.value[|r.user.content.value| - |req.content| - 1..] == " " + req.content
      else
        && r.staff.embeds.Some? && r.user.embeds.Some?
        && |r.staff.embeds.value| == 1 && |r.user.embeds.value| == 1
        && r.staff.embeds.value[0].description == req.content
        && r.user.embeds.value[0].description == req.content
  {
    assert SimpleStaffText(req) == Bold(SimpleAttribution(req)) + (" " + req.content);
    var u := AnonUserText(req);
    assert u == ("**" + req.staff.guildName + " Team:**") + (" " + req.content);
  }

  /**
   Once the reply ID `id` is known, the stamped simple-mode staff copy carries
   it as an inline-code tag in front of the text that was sent, where it can
   be read back; nothing but the text changes.
   */
  lemma SimpleStampCarriesReplyId(req: RenderRequest, id: nat)
    requires req.simpleMode
    ensures var staff := Render(req).staff;
      var p := StampReplyId(staff, req, id);
      && p == staff.(content := p.content)
      && p.content == Some("`" + (Show(id) + ("` " + SimpleStaffText(req))))
      && ParseInt(p.content.value[1..]) == Some(id)
  {
    var tail := "` " + SimpleStaffText(req);
    PrefixTagSplit(Show(id), SimpleStaffText(req));
    var c := "`" + (Show(id) + tail);
    assert c[1..] == Show(id) + tail;
    ParseShow(id, tail);
  }

  /**
   Once the reply ID `id` is known, the stamped rich-mode staff copy carries
   it in a `Reply ID: ` footer, followed by the staff tag and user id and
   shown with the staff member's avatar, where it can be read back; body,
   image and author stay as they were.
   */
  lemma RichStampCarriesReplyId(req: RenderRequest, id: nat)
    requires !req.simpleMode
    ensures var staff := Render(req).staff;
      var p := StampReplyId(staff, req, id);
      && p.embeds.Some? && |p.embeds.value| == 1
      && p.embeds.value[0] == staff.embeds.value[0].(footer := p.embeds.value[0].footer)
      && p.embeds.value[0].footer.Some?
      && p.embeds.value[0].footer.value.iconUrl == req.staff.userAvatarUrl
      && p.embeds.value[0].footer.value.text == "Reply ID: " + Show(id) + " | " + FooterText(None, req.staff)
      && p.embeds.value[0].footer.value.text[..10] == "Reply ID: "
      && ParseInt(p.embeds.value[0].footer.value.text[10..]) == Some(id)
  {
    FooterReplyId(Some(id), req.staff);
  }

  /**
   In rich mode without anonymity, stamping a freshly posted staff copy with
   reply ID `id` gives exactly the staff copy that editing reply `id` renders.
   */
  lemma RichStampMatchesEdit(req: RenderRequest, id: nat)
    requires !req.simpleMode && !req.anon && req.replyId.None?
    ensures StampReplyId(Render(req).staff, req, id) == Render(req.(replyId := Some(id))).staff
  {
  }

  /**
   In rich mode with anonymity, editing reply `id` sends the staff copy with
   no footer at all, while the freshly posted copy was stamped with one: the
   edit drops the reply ID and the staff identity from the staff thread.
   */
  lemma RichAnonEditDropsFooter(req: RenderRequest, id: nat)
    requires !req.simpleMode && req.anon && req.replyId.None?
    ensures StampReplyId(Render(req).staff, req, id).embeds.value[0].footer.Some?
    ensures Render(req.(replyId := Some(id))).staff.embeds.value[0].footer.None?
  {
  }

  /**
   In simple mode the freshly posted staff text is stamped with the tag in
   front of the bold part, whereas an edit renders it inside the bold part:
   the two texts for the same reply differ.
   */
  lemma SimpleStampDiffersFromEdit(req: RenderRequest, id: nat)
    requires req.simpleMode && req.replyId.None?
    ensures StampReplyId(Render(req).staff, req, id).content.value[0] == '`'
    ensures Render(req.(replyId := Some(id))).staff.content.value[..3] == "**`"
  {
    SimpleTextSplit(req.(replyId := Some(id)));
  }

  // ---------------------------------------------------------------------------
  // Regrouping steps for the text proofs. Each states one rearrangement of a
  // concatenation; kept apart so that every text proof above stays small.

  lemma BoldSplit(x: string, rest: string, content: string)
    ensures Bold(x + rest) + " " + content == "**" + (x + (rest + "** " + content))
  {
  }

  lemma TagSplit(n: string, after: string)
    ensures "**" + (InlineCode(n) + " " + after) == "**`" + (n + ("` " + after))
  {
  }

  lemma Regroup(a: string, b: string, c: string, d: string, e: string)
    ensures a + b + c + d + e == a + (b + c + d + e)
  {
  }

  lemma Glue(a: string, b: string, g: string, tail: string)
    ensures a + (b + g + tail) == a + b + g + tail
  {
  }

  lemma TagGlue(n: string, open: string, g: string, tail: string)
    ensures "**`" + (n + ("` " + (open + g + tail))) == "**`" + n + ("` " + open) + g + tail
  {
  }

  lemma PrefixTagSplit(n: string, x: string)
    ensures InlineCode(n) + " " + x == "`" + (n + ("` " + x))
  {
  }
}

=== FILE: Relay.dfy ===
/**
 The relay step of `sendStaffThreadMessage`: either edit an existing reply in
 place on both sides, or post a new reply in the staff thread, send it to the
 user's direct messages and, when that succeeds, allocate the thread's next
 local reply ID together with the record binding the two messages, then stamp
 that ID onto the staff message.
 */
module Relay {
  import opened Wrappers
  import opened Decimal
  import opened Payloads

  /** Discord message ids are opaque. */
  type MessageId = string

  /** The two messages of a reply being edited, and its reply ID. */
  datatype Existing = Existing(userMessage: MessageId, guildMessage: MessageId, replyId: nat)

  /** The arguments of one call. */
  datatype RelayRequest = RelayRequest(
    content: string,
    attachment: Option<Attachment>,
    staff: Staff,
    memberUserId: string,
    memberGuildId: string,
    threadId: int,
    simpleMode: bool,
    anon: bool,
    existing: Option<Existing>)

  /** One relayed reply as stored: a `threadMessage` row. */
  datatype ThreadMessage = ThreadMessage(
    guildId: string,
    localThreadMessageId: nat,
    threadId: int,
    userId: string,
    userMessageId: MessageId,
    guildMessageId: MessageId,
    staffId: string,
    anon: bool)

  /**
   The persisted state the relay touches: each thread's
   `lastLocalThreadMessageId`, and the reply records in creation order.
   */
  datatype Store = Store(threads: map<int, nat>, messages: seq<ThreadMessage>)

  /** What sending the user copy to the member's direct messages came to. */
  datatype DmOutcome = Delivered(id: MessageId) | Refused

  /** The calls made on Discord, in the order they are made. */
  datatype Effect =
    | PostInThread(payload: Payload)
    | SendDirect(payload: Payload)
    | EditMessage(message: MessageId, payload: Payload)

  /** How the call ended; `InvalidEmbed` is the embed builder throwing before any call. */
  datatype Outcome =
    | InvalidEmbed
    | Edited
    | DmFailed
    | ThreadMissing
    | Posted(record: ThreadMessage)

  datatype RelayResult = RelayResult(store: Store, effects: seq<Effect>, outcome: Outcome)

  /** The translated "could not DM the user" notice; its wording is not modelled. */
  const DmFailNotice: string := "common.errors.dm_fail"

  function NoticePayload(): Payload {
    Payload(Some(DmFailNotice), None, None, None)
  }

  function ToRender(req: RelayRequest): RenderRequest {
    RenderRequest(
      req.content, req.attachment, req.staff, req.anon, req.simpleMode,
      if req.existing.Some? then Some(req.existing.value.replyId) else None)
  }

  /**
   One call. `guildMessageId` is the id Discord gives the message posted in
   the staff thread, `dm` what the attempt to send to the member came to.
   */
  function Relay(s: Store, req: RelayRequest, guildMessageId: MessageId, dm: DmOutcome): (r: RelayResult)
    // a rich reply whose body the embed builder refuses fails before any call
    ensures !Buildable(ToRender(req)) ==> r == RelayResult(s, [], InvalidEmbed)
    // edit path: staff message first, then the user's, and nothing allocated
    ensures Buildable(ToRender(req)) && req.existing.Some? ==>
      && r.outcome == Edited && r.store == s
      && r.effects == [EditMessage(req.existing.value.guildMessage, Render(ToRender(req)).staff),
                       EditMessage(req.existing.value.userMessage, Render(ToRender(req)).user)]
    // new path: the staff copy is posted, then the user copy is sent
    ensures Buildable(ToRender(req)) && req.existing.None? ==>
      && 2 <= |r.effects| <= 3
      && r.effects[0] == PostInThread(Render(ToRender(req)).staff)
      && r.effects[1] == SendDirect(Render(ToRender(req)).user)
    // a refused DM ends with the notice in the thread, state untouched
    ensures Buildable(ToRender(req)) && req.existing.None? && dm.Refused? ==>
      r.outcome == DmFailed && r.store == s && |r.effects| == 3 && r.effects[2] == PostInThread(NoticePayload())
    // a delivered reply to a thread that has no row is posted and sent, but neither recorded nor stamped
    ensures Buildable(ToRender(req)) && req.existing.None? && dm.Delivered? && req.threadId !in s.threads ==>
      r.outcome == ThreadMissing && r.store == s && |r.effects| == 2
    // the store changes only when a reply is posted, and then by one increment and one record
    ensures r.outcome.Posted? <==>
      Buildable(ToRender(req)) && req.existing.None? && dm.Delivered? && req.threadId in s.threads
    ensures !r.outcome.Posted? ==> r.store == s
    ensures r.outcome.Posted? ==>
      var n := s.threads[req.threadId] + 1;
      && r.store.threads == s.threads[req.threadId := n]
      && r.store.messages == s.messages + [r.outcome.record]
      && r.outcome.record == ThreadMessage(
           req.memberGuildId, n, req.threadId, req.memberUserId,
           dm.id, guildMessageId, req.staff.userId, req.anon)
      && |r.effects| == 3
      // the final call re-edits the posted staff copy, stamped with the new number
      && r.effects[2] == EditMessage(guildMessageId, StampReplyId(r.effects[0].payload, ToRender(req), n))
  {
    var rendered := Render(ToRender(req));
    if !Buildable(ToRender(req)) then RelayResult(s, [], InvalidEmbed)
    else match req.existing
    case Some(ex) =>
      RelayResult(s, [EditMessage(ex.guildMessage, rendered.staff), EditMessage(ex.userMessage, rendered.user)], Edited)
    case None =>
      var sent := [PostInThread(rendered.staff), SendDirect(rendered.user)];
      match dm
      case Refused =>
        RelayResult(s, sent + [PostInThread(NoticePayload())], DmFailed)
      case Delivered(userMessageId) =>
        if req.threadId !in s.threads then
          // the counter update finds no thread and the transaction rolls back
          RelayResult(s, sent, ThreadMissing)
        else
          var n := s.threads[req.threadId] + 1;
          var record := ThreadMessage(
            req.memberGuildId, n, req.threadId, req.memberUserId,
            userMessageId, guildMessageId, req.staff.userId, req.anon);
          var s' := Store(s.threads[req.threadId := n], s.messages + [record]);
          RelayResult(s', sent + [EditMessage(guildMessageId, StampReplyId(rendered.staff, ToRender(req), n))], Posted(record))
  }

  // ---------------------------------------------------------------------------
  // Reply IDs handed out per thread

  /** The reply IDs recorded for thread `t`, in the order the records were created. */
  function Issued(ms: seq<ThreadMessage>, t: int): seq<nat> {
    if |ms| == 0 then []
    else
      var last := ms[|ms| - 1];
      Issued(ms[..|ms| - 1], t) + (if last.threadId == t then [last.localThreadMessageId] else [])
  }

  /** The sequence 1, 2, ..., c. */
  function Range(c: nat): seq<nat> {
    if c == 0 then [] else Range(c - 1) + [c]
  }

  /**
   Every record belongs to a known thread, and the reply IDs recorded for a
   thread are exactly 1, 2, ..., its counter, in creation order.
   */
  ghost predicate Consistent(s: Store) {
    && (forall i :: 0 <= i < |s.messages| ==> s.messages[i].threadId in s.threads)
    && (forall t :: t in s.threads ==> Issued(s.messages, t) == Range(s.threads[t]))
  }

  lemma IssuedAppend(ms: seq<ThreadMessage>, m: ThreadMessage, t: int)
    ensures Issued(ms + [m], t) == Issued(ms, t) + (if m.threadId == t then [m.localThreadMessageId] else [])
  {
    assert (ms + [m])[..|ms|] == ms;
  }

  /** One relay call keeps the store consistent. */
  lemma RelayKeepsConsistent(s: Store, req: RelayRequest, guildMessageId: MessageId, dm: DmOutcome)
    requires Consistent(s)
    ensures Consistent(Relay(s, req, guildMessageId, dm).store)
  {
    var r := Relay(s, req, guildMessageId, dm);
    if r.outcome.Posted? {
      var s' := r.store;
      var m := r.outcome.record;
      forall t | t in s'.threads
        ensures Issued(s'.messages, t) == Range(s'.threads[t])
      {
        IssuedAppend(s.messages, m, t);
      }
      forall i | 0 <= i < |s'.messages|
        ensures s'.messages[i].threadId in s'.threads
      {
        if i < |s.messages| {
          assert s'.messages[i] == s.messages[i];
        }
      }
    }
  }

  /** A relay call together with what its two sends came to. */
  datatype Step = Step(req: RelayRequest, guildMessageId: MessageId, dm: DmOutcome)

  /** The store after a series of calls, one after the other. */
  function Run(s: Store, steps: seq<Step>): Store
    decreases |steps|
  {
    if |steps| == 0 then s
    else Run(Relay(s, steps[0].req, steps[0].guildMessageId, steps[0].dm).store, steps[1..])
  }

  /** Threads just opened: every counter at 0 and no records. */
  function Fresh(threadIds: set<int>): (s: Store)
    ensures Consistent(s)
  {
    Store(map t | t in threadIds :: 0, [])
  }

  /** Any series of calls keeps the store consistent. */
  lemma {:induction false} RunKeepsConsistent(s: Store, steps: seq<Step>)
    requires Consistent(s)
    ensures Consistent(Run(s, steps))
    decreases |steps|
  {
    if |steps| > 0 {
      RelayKeepsConsistent(s, steps[0].req, steps[0].guildMessageId, steps[0].dm);
      RunKeepsConsistent(Relay(s, steps[0].req, steps[0].guildMessageId, steps[0].dm).store, steps[1..]);
    }
  }

  /**
   When a thread's recorded IDs are 1..c, each of its records has an ID in
   1..c and a later record always has a larger ID: no ID is issued twice.
   */
  lemma {:induction false} IssuedInCommitOrder(ms: seq<ThreadMessage>, t: int, c: nat)
    requires Issued(ms, t) == Range(c)
    ensures forall i :: 0 <= i < |ms| && ms[i].threadId == t ==> 1 <= ms[i].localThreadMessageId <= c
    ensures forall i, j :: 0 <= i < j < |ms| && ms[i].threadId == t && ms[j].threadId == t ==>
      ms[i].localThreadMessageId < ms[j].localThreadMessageId
    decreases |ms|
  {
    if |ms| > 0 {
      var p := ms[..|ms| - 1];
      var last := ms[|ms| - 1];
      if last.threadId == t {
        assert Issued(p, t) + [last.localThreadMessageId] == Range(c);
        assert |Range(c)| > 0;
        var a := Issued(p, t);
        var b := Range(c - 1);
        assert a + [last.localThreadMessageId] == b + [c];
        assert |a| == |b|;
        assert a == (a + [last.localThreadMessageId])[..|a|] == (b + [c])[..|b|] == b;
        assert last.localThreadMessageId == (b + [c])[|b|] == c;
        IssuedInCommitOrder(p, t, c - 1);
      } else {
        assert Issued(p, t) == Range(c);
        IssuedInCommitOrder(p, t, c);
      }
      assert forall i :: 0 <= i < |p| ==> ms[i] == p[i];
    }
  }

  /**
   Starting from freshly opened threads, after any series of calls the
   records of each thread carry pairwise distinct IDs, increasing in the order
   the records were created and bounded by the thread's counter.
   */
  lemma ReplyIdsUnique(threadIds: set<int>, steps: seq<Step>, t: int)
    requires t in threadIds
    ensures var s := Run(Fresh(threadIds), steps);
      && t in s.threads
      && Issued(s.messages, t) == Range(s.threads[t])
      && forall i, j :: 0 <= i < j < |s.messages| && s.messages[i].threadId == t && s.messages[j].threadId == t ==>
           s.messages[i].localThreadMessageId < s.messages[j].localThreadMessageId
  {
    RunKeepsThreads(Fresh(threadIds), steps);
    RunKeepsConsistent(Fresh(threadIds), steps);
    var s := Run(Fresh(threadIds), steps);
    IssuedInCommitOrder(s.messages, t, s.threads[t]);
  }

  /** Threads are never dropped. */
  lemma {:induction false} RunKeepsThreads(s: Store, steps: seq<Step>)
    ensures s.threads.Keys <= Run(s, steps).threads.Keys
    decreases |steps|
  {
    if |steps| > 0 {
      RunKeepsThreads(Relay(s, steps[0].req, steps[0].guildMessageId, steps[0].dm).store, steps[1..]);
    }
  }

  // ---------------------------------------------------------------------------
  // What staff see in the thread

  /**
   After a reply is posted, the last call edits the staff message so that it
   shows the ID stored in the new record: in simple mode the posted text with
   the inline-code tag and a space in front, in rich mode the posted embed
   with only its footer replaced by `Reply ID: id | tag (user id)`.
   */
  lemma PostedStaffMessageShowsRecordId(s: Store, req: RelayRequest, guildMessageId: MessageId, dm: DmOutcome)
    requires Relay(s, req, guildMessageId, dm).outcome.Posted?
    ensures var r := Relay(s, req, guildMessageId, dm);
      var id := r.outcome.record.localThreadMessageId;
      var posted := r.effects[0].payload;
      var p := r.effects[2].payload;
      && r.effects[0] == PostInThread(posted)
      && r.effects[2] == EditMessage(r.outcome.record.guildMessageId, p)
      && (req.simpleMode ==>
            && posted.content.Some? && p.content.Some?
            && p == posted.(content := Some(InlineCode(Show(id)) + " " + posted.content.value))
            && p.content.value[0] == '`'
            && ParseInt(p.content.value[1..]) == Some(id))
      && (!req.simpleMode ==>
            && posted.embeds.Some? && |posted.embeds.value| == 1
            && p == posted.(embeds := Some([posted.embeds.value[0].(footer := Some(Footer(
                 "Reply ID: " + Show(id) + " | " + FooterText(None, req.staff), req.staff.userAvatarUrl)))]))
            && ParseInt(p.embeds.value[0].footer.value.text[10..]) == Some(id))
  {
    var rq := ToRender(req);
    var id := Relay(s, req, guildMessageId, dm).outcome.record.localThreadMessageId;
    if req.simpleMode {
      SimpleStampCarriesReplyId(rq, id);
    } else {
      RichStampCarriesReplyId(rq, id);
    }
  }

  /**
   When the direct message is refused, the staff message is never edited:
   it keeps the text it was posted with, and no reply ID is stored.
   */
  lemma RefusedDmLeavesStaffMessage(s: Store, req: RelayRequest, guildMessageId: MessageId)
    requires req.existing.None?
    ensures var r := Relay(s, req, guildMessageId, Refused);
      && r.store == s
      && forall k :: 0 <= k < |r.effects| ==> !r.effects[k].EditMessage?
  {
  }

  /** A first simple-mode reply, not anonymous, in thread 7 (used by the scenario below). */
  function FirstReply(): RelayRequest {
    RelayRequest("hello", None, Staff("Alice#0001", "10", "Alice", "ua", "ma", "Acme", None),
      "20", "30", 7, true, false, None)
  }

  lemma FirstReplyText()
    ensures SimpleStaffText(ToRender(FirstReply())) == "**(Acme Team) Alice#0001:** hello"
  {
    assert SimpleAttribution(ToRender(FirstReply())) == "(Acme Team) Alice#0001:";
  }

  /**
   The first reply in a fresh thread: the staff thread first gets the text
   without a reply ID, the record takes ID 1, and the staff message is then
   edited so that the tag `1` and a space open the same text.
   */
  lemma FirstSimpleReplyScenario()
    ensures var r := Relay(Fresh({7}), FirstReply(), "m1", Delivered("d1"));
      && r.effects[0].payload.content == Some("**(Acme Team) Alice#0001:** hello")
      && r.outcome.Posted? && r.outcome.record.localThreadMessageId == 1
      && r.effects[2] == EditMessage("m1", r.effects[0].payload.(content := Some("`1` " + r.effects[0].payload.content.value)))
  {
    FirstReplyText();
    var rq := ToRender(FirstReply());
    assert Fresh({7}).threads[7] == 0;
    assert InlineCode(Show(1)) + " " == "`1` " by {
      assert Show(1) == "1";
    }
    var p := SimplePayload(rq);
    assert StampReplyId(p, rq, 1) == p.(content := Some("`1` " + p.content.value));
  }
}

=== FILE: SnippetBodies.dfy ===
/**
 The request-body schemas of the snippet routes: `PUT .../snippets/` takes
 `name`, `content` and `createdById`; `PATCH .../snippets/:snippetId` takes an
 optional `name`, an optional `content` and `updatedById`. Both schemas are
 strict: a key outside the schema rejects the body.
 */
module SnippetBodies {
  import opened Wrappers

  /** A JSON value as far as the schemas look at it: a string, or anything else. */
  datatype JsonValue = JString(str: string) | JOther

  /** A decoded JSON object body. */
  type RawBody = map<string, JsonValue>

  datatype CreateBody = CreateBody(name: string, content: string, createdById: string)

  datatype UpdateBody = UpdateBody(name: Option<string>, content: Option<string>, updatedById: string)

  const NameMax: nat := 32
  const ContentMax: nat := 1900

  predicate ValidName(name: string) {
    0 < |name| <= NameMax
  }

  predicate ValidContent(content: string) {
    0 < |content| <= ContentMax
  }

  /** The string under `key` when it is present, a string, and of length 1..`maxLen`. */
  function BoundedString(raw: RawBody, key: string, maxLen: nat): Option<string> {
    if key in raw && raw[key].JString? && 0 < |raw[key].str| <= maxLen then Some(raw[key].str) else None
  }

  /** The string under `key` when it is present and passes `isSnowflake`. */
  function SnowflakeString(raw: RawBody, key: string, isSnowflake: string -> bool): Option<string> {
    if key in raw && raw[key].JString? && isSnowflake(raw[key].str) then Some(raw[key].str) else None
  }

  /**
   The create schema. `isSnowflake` stands for the snowflake validator, which
   is not part of this model.
   */
  function ParseCreateBody(raw: RawBody, isSnowflake: string -> bool): (r: Option<CreateBody>)
    ensures r.Some? <==>
      && raw.Keys <= {"name", "content", "createdById"}
      && "name" in raw && raw["name"].JString? && ValidName(raw["name"].str)
      && "content" in raw && raw["content"].JString? && ValidContent(raw["content"].str)
      && "createdById" in raw && raw["createdById"].JString? && isSnowflake(raw["createdById"].str)
    ensures r.Some? ==>
      && r.value.name == raw["name"].str
      && r.value.content == raw["content"].str
      && r.value.createdById == raw["createdById"].str
  {
    if !(raw.Keys <= {"name", "content", "createdById"}) then None
    else
      var name := BoundedString(raw, "name", NameMax);
      var content := BoundedString(raw, "content", ContentMax);
      var createdBy := SnowflakeString(raw, "createdById", isSnowflake);
      if name.None? || content.None? || createdBy.None? then None
      else Some(CreateBody(name.value, content.value, createdBy.value))
  }

  /** The JSON object a client sends for a create body. */
  function EncodeCreateBody(b: CreateBody): RawBody {
    map["name" := JString(b.name), "content" := JString(b.content), "createdById" := JString(b.createdById)]
  }

  /** Every well-formed create body survives being sent and validated. */
  lemma CreateBodyRoundTrip(b: CreateBody, isSnowflake: string -> bool)
    requires ValidName(b.name) && ValidContent(b.content) && isSnowflake(b.createdById)
    ensures ParseCreateBody(EncodeCreateBody(b), isSnowflake) == Some(b)
  {
  }

  /**
   Strictness: an accepted body is exactly the encoding of what it was read
   as, so no extra key and no non-string value slips through.
   */
  lemma CreateBodyAcceptedIsEncoding(raw: RawBody, isSnowflake: string -> bool)
    requires ParseCreateBody(raw, isSnowflake).Some?
    ensures raw == EncodeCreateBody(ParseCreateBody(raw, isSnowflake).value)
  {
    var e := EncodeCreateBody(ParseCreateBody(raw, isSnowflake).value);
    assert raw.Keys == e.Keys;
  }

  /** An optional bounded string: absent is fine, present must be a string of length 1..`maxLen`. */
  function OptionalBoundedString(raw: RawBody, key: string, maxLen: nat): Result<Option<string>, string> {
    if key !in raw then Success(None)
    else if raw[key].JString? && 0 < |raw[key].str| <= maxLen then Success(Some(raw[key].str))
    else Failure(key)
  }

  /** The update schema; `isSnowflake` as for create. */
  function ParseUpdateBody(raw: RawBody, isSnowflake: string -> bool): (r: Option<UpdateBody>)
    ensures r.Some? <==>
      && raw.Keys <= {"name", "content", "updatedById"}
      && ("name" in raw ==> raw["name"].JString? && ValidName(raw["name"].str))
      && ("content" in raw ==> raw["content"].JString? && ValidContent(raw["content"].str))
      && "updatedById" in raw && raw["updatedById"].JString? && isSnowflake(raw["updatedById"].str)
    ensures r.Some? ==>
      && (r.value.name.Some? <==> "name" in raw)
      && (r.value.name.Some? ==> r.value.name.value == raw["name"].str)
      && (r.value.content.Some? <==> "content" in raw)
      && (r.value.content.Some? ==> r.value.content.value == raw["content"].str)
      && r.value.updatedById == raw["updatedById"].str
  {
    if !(raw.Keys <= {"name", "content", "updatedById"}) then None
    else
      var name := OptionalBoundedString(raw, "name", NameMax);
      var content := OptionalBoundedString(raw, "content", ContentMax);
      var updatedBy := SnowflakeString(raw, "updatedById", isSnowflake);
      if name.Failure? || content.Failure? || updatedBy.None? then None
      else Some(UpdateBody(name.value, content.value, updatedBy.value))
  }

  /** The JSON object a client sends for an update body; absent fields are left out. */
  function EncodeUpdateBody(b: UpdateBody): RawBody {
    var base := map["updatedById" := JString(b.updatedById)];
    var withName := if b.name.Some? then base["name" := JString(b.name.value)] else base;
    if b.content.Some? then withName["content" := JString(b.content.value)] else withName
  }

  /** Every well-formed update body survives being sent and validated. */
  lemma UpdateBodyRoundTrip(b: UpdateBody, isSnowflake: string -> bool)
    requires b.name.Some? ==> ValidName(b.name.value)
    requires b.content.Some? ==> ValidContent(b.content.value)
    requires isSnowflake(b.updatedById)
    ensures ParseUpdateBody(EncodeUpdateBody(b), isSnowflake) == Some(b)
  {
  }

  /** Strictness for updates: an accepted body is exactly the encoding of what it was read as. */
  lemma UpdateBodyAcceptedIsEncoding(raw: RawBody, isSnowflake: string -> bool)
    requires ParseUpdateBody(raw, isSnowflake).Some?
    ensures raw == EncodeUpdateBody(ParseUpdateBody(raw, isSnowflake).value)
  {
    var e := EncodeUpdateBody(ParseUpdateBody(raw, isSnowflake).value);
    assert raw.Keys == e.Keys;
  }
}

=== FILE: Snippets.dfy ===
/**
 The snippet routes of the API: creating a guild snippet (with its mirrored
 guild slash command) and updating one (with a history row of the content it
 replaced).
 */
module Snippets {
  import opened Wrappers
  import opened Decimal
  import opened SnippetBodies

  /** A `snippet` row. */
  datatype Snippet = Snippet(
    snippetId: int,
    guildId: string,
    name: string,
    content: string,
    createdById: string,
    commandId: string)

  /** A `snippetUpdates` row: the content a snippet had before an update, and who updated it. */
  datatype SnippetUpdate = SnippetUpdate(snippetId: int, oldContent: string, updatedBy: string)

  /**
   The snippet tables: rows by id, update history in insertion order, and the
   id the next created snippet receives (an auto-incremented key).
   */
  datatype Registry = Registry(snippets: map<int, Snippet>, history: seq<SnippetUpdate>, nextId: int)

  /** Discord's application command option type for booleans. */
  const BooleanOptionType: nat := 5

  datatype CommandOption = CommandOption(name: string, description: string, optionType: nat)

  /** The body of a guild command registration. */
  datatype CommandData = CommandData(
    name: string,
    description: string,
    defaultMemberPermissions: string,
    options: seq<CommandOption>)

  /** Calls made on Discord's REST API. */
  datatype Call =
    | PostCommand(guildId: string, data: CommandData)
    | PatchCommand(guildId: string, commandId: string, body: UpdateBody)

  /** Why a request failed; `CallFailed` is a REST call that threw. */
  datatype HttpError =
    | InvalidBody
    | BadRequest(message: string)
    | NotFound(message: string)
    | CallFailed

  datatype Response = Reply(status: nat, snippet: Snippet) | Error(error: HttpError)

  datatype RouteResult = RouteResult(registry: Registry, calls: seq<Call>, response: Response)

  const DuplicateNameMessage: string := "A snippet with this name already exists in the guild"
  const InvalidIdMessage: string := "Invalid snippet ID"
  const NotFoundMessage: string := "Snippet not found"

  // ---------------------------------------------------------------------------
  // Registry invariants

  /** Rows sit under their own id, ids lie below `nextId`, history rows name existing snippets. */
  ghost predicate WellFormed(reg: Registry) {
    && 1 <= reg.nextId
    && (forall id :: id in reg.snippets ==> reg.snippets[id].snippetId == id && 1 <= id < reg.nextId)
    && (forall k :: 0 <= k < |reg.history| ==> reg.history[k].snippetId in reg.snippets)
  }

  /** No two snippets of one guild share a name. */
  ghost predicate NamesUnique(reg: Registry) {
    forall a, b :: a in reg.snippets && b in reg.snippets && a != b ==>
      reg.snippets[a].guildId != reg.snippets[b].guildId || reg.snippets[a].name != reg.snippets[b].name
  }

  /** Some snippet of `guildId` is called `name`. */
  predicate NameTaken(reg: Registry, guildId: string, name: string) {
    exists id | id in reg.snippets :: reg.snippets[id].guildId == guildId && reg.snippets[id].name == name
  }

  // ---------------------------------------------------------------------------
  // Create

  /** The guild command mirroring a snippet called `name`. */
  function SnippetCommand(name: string): (c: CommandData)
    ensures c.name == name && c.defaultMemberPermissions == "0"
    ensures |c.options| == 1 && c.options[0].name == "anon" && c.options[0].optionType == BooleanOptionType
  {
    CommandData(
      name,
      "This is a local snippet",
      "0",
      [CommandOption("anon", "Whether or not to send the message as anonymous - defaults to true", BooleanOptionType)])
  }

  /**
   The create handler. `registered` is the id of the command Discord
   registered, or `None` if the registration call threw.
   */
  function Create(reg: Registry, guildId: string, body: CreateBody, registered: Option<string>): (r: RouteResult)
    // a duplicate name is refused before anything is called or written
    ensures NameTaken(reg, guildId, body.name) ==>
      r == RouteResult(reg, [], Error(BadRequest(DuplicateNameMessage)))
    ensures !NameTaken(reg, guildId, body.name) ==> r.calls == [PostCommand(guildId, SnippetCommand(body.name))]
    ensures r.response.Reply? <==> !NameTaken(reg, guildId, body.name) && registered.Some?
    ensures !r.response.Reply? ==> r.registry == reg
    ensures r.response.Reply? ==>
      var created := Snippet(reg.nextId, guildId, body.name, body.content, body.createdById, registered.value);
      && r.response == Reply(201, created)
      && r.registry == Registry(reg.snippets[reg.nextId := created], reg.history, reg.nextId + 1)
  {
    if NameTaken(reg, guildId, body.name) then
      RouteResult(reg, [], Error(BadRequest(DuplicateNameMessage)))
    else
      var calls := [PostCommand(guildId, SnippetCommand(body.name))];
      match registered
      case None => RouteResult(reg, calls, Error(CallFailed))
      case Some(commandId) =>
        var created := Snippet(reg.nextId, guildId, body.name, body.content, body.createdById, commandId);
        RouteResult(Registry(reg.snippets[reg.nextId := created], reg.history, reg.nextId + 1), calls, Reply(201, created))
  }

  /** The create route: validate the body, then run the handler. */
  function CreateRoute(reg: Registry, guildId: string, raw: RawBody, isSnowflake: string -> bool, registered: Option<string>): (r: RouteResult)
    // a refused body costs no call and no write
    ensures r.response == Error(InvalidBody) ==> r.registry == reg && r.calls == []
    // a created snippet is exactly what the client sent, in the guild of the path
    ensures r.response.Reply? ==>
      && raw == EncodeCreateBody(CreateBody(r.response.snippet.name, r.response.snippet.content, r.response.snippet.createdById))
      && r.response.snippet.guildId == guildId
  {
    match ParseCreateBody(raw, isSnowflake)
    case None => RouteResult(reg, [], Error(InvalidBody))
    case Some(body) =>
      CreateBodyAcceptedIsEncoding(raw, isSnowflake);
      Create(reg, guildId, body, registered)
  }

  /** A well-formed create body, sent as JSON, reaches the handler unchanged. */
  lemma CreateRouteOnEncodedBody(reg: Registry, guildId: string, b: CreateBody, isSnowflake: string -> bool, registered: Option<string>)
    requires ValidName(b.name) && ValidContent(b.content) && isSnowflake(b.createdById)
    ensures CreateRoute(reg, guildId, EncodeCreateBody(b), isSnowflake, registered) == Create(reg, guildId, b, registered)
  {
    CreateBodyRoundTrip(b, isSnowflake);
  }

  /**
   A create body with a key outside the schema, or a field that is missing,
   not a string, or out of bounds, is refused with no call and no write.
   */
  lemma CreateRouteRejects(reg: Registry, guildId: string, raw: RawBody, isSnowflake: string -> bool, registered: Option<string>)
    requires
      || (exists key :: key in raw && key !in {"name", "content", "createdById"})
      || "name" !in raw || !raw["name"].JString? || |raw["name"].str| == 0 || |raw["name"].str| > NameMax
      || "content" !in raw || !raw["content"].JString? || |raw["content"].str| == 0 || |raw["content"].str| > ContentMax
      || "createdById" !in raw || !raw["createdById"].JString? || !isSnowflake(raw["createdById"].str)
    ensures CreateRoute(reg, guildId, raw, isSnowflake, registered) == RouteResult(reg, [], Error(InvalidBody))
  {
  }

  /** A create keeps the registry well formed and keeps names unique per guild. */
  lemma CreateKeepsInvariants(reg: Registry, guildId: string, body: CreateBody, registered: Option<string>)
    requires WellFormed(reg) && NamesUnique(reg)
    ensures WellFormed(Create(reg, guildId, body, registered).registry)
    ensures NamesUnique(Create(reg, guildId, body, registered).registry)
  {
    var r := Create(reg, guildId, body, registered);
    if r.response.Reply? {
      var reg' := r.registry;
      var created := r.response.snippet;
      assert reg.nextId !in reg.snippets;
      forall a, b | a in reg'.snippets && b in reg'.snippets && a != b
        ensures reg'.snippets[a].guildId != reg'.snippets[b].guildId || reg'.snippets[a].name != reg'.snippets[b].name
      {
        if a == reg.nextId {
          assert reg'.snippets[b] == reg.snippets[b];
        } else if b == reg.nextId {
          assert reg'.snippets[a] == reg.snippets[a];
        }
      }
    }
  }

  /** A created snippet, once stored, blocks a second create of the same name in the same guild. */
  lemma CreatedNameIsTaken(reg: Registry, guildId: string, body: CreateBody, commandId: string, body2: CreateBody, registered2: Option<string>)
    requires !NameTaken(reg, guildId, body.name)
    requires body2.name == body.name
    ensures var reg' := Create(reg, guildId, body, Some(commandId)).registry;
      Create(reg', guildId, body2, registered2) == RouteResult(reg', [], Error(BadRequest(DuplicateNameMessage)))
  {
    var reg' := Create(reg, guildId, body, Some(commandId)).registry;
    assert reg'.snippets[reg.nextId].name == body.name;
  }

  // ---------------------------------------------------------------------------
  // Update

  /** The snippet after an update: fields the body leaves out keep their value. */
  function Apply(s: Snippet, body: UpdateBody): (u: Snippet)
    ensures u.snippetId == s.snippetId && u.guildId == s.guildId
    ensures u.createdById == s.createdById && u.commandId == s.commandId
    ensures body.name.Some? ==> u.name == body.name.value
    ensures body.name.None? ==> u.name == s.name
    ensures body.content.Some? ==> u.content == body.content.value
    ensures body.content.None? ==> u.content == s.content
  {
    s.(name := body.name.GetOr(s.name), content := body.content.GetOr(s.content))
  }

  /**
   The update handler. `snippetIdParam` is the raw path segment; `patched`
   says whether the command patch call went through.
   */
  function Update(reg: Registry, guildId: string, snippetIdParam: string, body: UpdateBody, patched: bool): (r: RouteResult)
    // an id that does not parse is refused before any lookup, call or write
    ensures ParseInt(snippetIdParam).None? ==> r == RouteResult(reg, [], Error(BadRequest(InvalidIdMessage)))
    // an unknown id is refused before any call or write
    ensures ParseInt(snippetIdParam).Some? && ParseInt(snippetIdParam).value !in reg.snippets ==>
      r == RouteResult(reg, [], Error(NotFound(NotFoundMessage)))
    ensures ParseInt(snippetIdParam).Some? && ParseInt(snippetIdParam).value in reg.snippets ==>
      var prev := reg.snippets[ParseInt(snippetIdParam).value];
      r.calls == [PatchCommand(guildId, prev.commandId, body)]
    ensures r.response.Reply? <==>
      ParseInt(snippetIdParam).Some? && ParseInt(snippetIdParam).value in reg.snippets && patched
    ensures !r.response.Reply? ==> r.registry == reg
    ensures r.response.Reply? ==>
      var id := ParseInt(snippetIdParam).value;
      var prev := reg.snippets[id];
      && r.registry.snippets.Keys == reg.snippets.Keys
      && r.response == Reply(200, r.registry.snippets[id])
      && (forall k :: k in reg.snippets && k != id ==> r.registry.snippets[k] == reg.snippets[k])
      && r.registry.snippets[id] == Apply(prev, body)
      && r.registry.history == reg.history + [SnippetUpdate(id, prev.content, body.updatedById)]
      && r.registry.nextId == reg.nextId
  {
    match ParseInt(snippetIdParam)
    case None => RouteResult(reg, [], Error(BadRequest(InvalidIdMessage)))
    case Some(id) =>
      if id !in reg.snippets then RouteResult(reg, [], Error(NotFound(NotFoundMessage)))
      else
        var prev := reg.snippets[id];
        var calls := [PatchCommand(guildId, prev.commandId, body)];
        if !patched then RouteResult(reg, calls, Error(CallFailed))
        else
          // the row update and the history insert run in one transaction
          var updated := Apply(prev, body);
          var reg' := Registry(
            reg.snippets[id := updated],
            reg.history + [SnippetUpdate(id, prev.content, body.updatedById)],
            reg.nextId);
          RouteResult(reg', calls, Reply(200, updated))
  }

  /** The update route: validate the body, then run the handler. */
  function UpdateRoute(reg: Registry, guildId: string, snippetIdParam: string, raw: RawBody,
                       isSnowflake: string -> bool, patched: bool): (r: RouteResult)
    // a refused body costs no call and no write
    ensures r.response == Error(InvalidBody) ==> r.registry == reg && r.calls == []
    // a successful update took only schema keys, stored what was sent and logged the sender
    ensures r.response.Reply? ==>
      && raw.Keys <= {"name", "content", "updatedById"}
      && ("name" in raw ==> raw["name"] == JString(r.response.snippet.name))
      && ("content" in raw ==> raw["content"] == JString(r.response.snippet.content))
      && |r.registry.history| == |reg.history| + 1
      && "updatedById" in raw && raw["updatedById"] == JString(r.registry.history[|reg.history|].updatedBy)
  {
    match ParseUpdateBody(raw, isSnowflake)
    case None => RouteResult(reg, [], Error(InvalidBody))
    case Some(body) => Update(reg, guildId, snippetIdParam, body, patched)
  }

  /** A well-formed update body, sent as JSON, reaches the handler unchanged. */
  lemma UpdateRouteOnEncodedBody(reg: Registry, guildId: string, snippetIdParam: string, b: UpdateBody,
                                 isSnowflake: string -> bool, patched: bool)
    requires b.name.Some? ==> ValidName(b.name.value)
    requires b.content.Some? ==> ValidContent(b.content.value)
    requires isSnowflake(b.updatedById)
    ensures UpdateRoute(reg, guildId, snippetIdParam, EncodeUpdateBody(b), isSnowflake, patched)
         == Update(reg, guildId, snippetIdParam, b, patched)
  {
    UpdateBodyRoundTrip(b, isSnowflake);
  }

  /**
   An update body with a key outside the schema, a present name or content
   that is not a string of allowed length, or a missing or invalid
   `updatedById` is refused with no lookup, call or write.
   */
  lemma UpdateRouteRejects(reg: Registry, guildId: string, snippetIdParam: string, raw: RawBody,
                           isSnowflake: string -> bool, patched: bool)
    requires
      || (exists key :: key in raw && key !in {"name", "content", "updatedById"})
      || ("name" in raw && (!raw["name"].JString? || |raw["name"].str| == 0 || |raw["name"].str| > NameMax))
      || ("content" in raw && (!raw["content"].JString? || |raw["content"].str| == 0 || |raw["content"].str| > ContentMax))
      || "updatedById" !in raw || !raw["updatedById"].JString? || !isSnowflake(raw["updatedById"].str)
    ensures UpdateRoute(reg, guildId, snippetIdParam, raw, isSnowflake, patched) == RouteResult(reg, [], Error(InvalidBody))
  {
  }

  /** An update keeps the registry well formed. */
  lemma UpdateKeepsWellFormed(reg: Registry, guildId: string, snippetIdParam: string, body: UpdateBody, patched: bool)
    requires WellFormed(reg)
    ensures WellFormed(Update(reg, guildId, snippetIdParam, body, patched).registry)
  {
    var r := Update(reg, guildId, snippetIdParam, body, patched);
    if r.response.Reply? {
      var reg' := r.registry;
      forall k | 0 <= k < |reg'.history|
        ensures reg'.history[k].snippetId in reg'.snippets
      {
        if k < |reg.history| {
          assert reg'.history[k] == reg.history[k];
        }
      }
    }
  }

  /**
   The lookup is by snippet id alone: the guild in the path picks only the
   guild the command patch is addressed to, and the same command is patched
   whichever guild that is. For the same outcome of that patch, the path's
   guild changes neither what is written nor what is answered.
   */
  lemma UpdateIgnoresPathGuild(reg: Registry, g1: string, g2: string, snippetIdParam: string, body: UpdateBody, patched: bool)
    ensures ParseInt(snippetIdParam).Some? && ParseInt(snippetIdParam).value in reg.snippets ==>
      var c := reg.snippets[ParseInt(snippetIdParam).value].commandId;
      && Update(reg, g1, snippetIdParam, body, patched).calls == [PatchCommand(g1, c, body)]
      && Update(reg, g2, snippetIdParam, body, patched).calls == [PatchCommand(g2, c, body)]
    ensures Update(reg, g1, snippetIdParam, body, patched).registry == Update(reg, g2, snippetIdParam, body, patched).registry
    ensures Update(reg, g1, snippetIdParam, body, patched).response == Update(reg, g2, snippetIdParam, body, patched).response
  {
  }

  /**
   The history row of a successful update holds the content the snippet had
   just before, so the previous content can be restored from the log.
   */
  lemma UpdateLogsPreviousContent(reg: Registry, guildId: string, snippetIdParam: string, body: UpdateBody)
    requires Update(reg, guildId, snippetIdParam, body, true).response.Reply?
    ensures var r := Update(reg, guildId, snippetIdParam, body, true);
      var id := ParseInt(snippetIdParam).value;
      var row := r.registry.history[|r.registry.history| - 1];
      && |r.registry.history| == |reg.history| + 1
      && row.snippetId == id
      && row.oldContent == reg.snippets[id].content
      && row.updatedBy == body.updatedById
  {
  }

  /**
   A rename is not checked against the other names of the guild: renaming
   one of two snippets of a guild to the other's name succeeds and leaves two
   snippets with the same name in that guild.
   */
  lemma RenameCanDuplicateName()
    ensures var a := Snippet(1, "g", "hi", "hello", "u", "c1");
      var b := Snippet(2, "g", "bye", "goodbye", "u", "c2");
      var reg := Registry(map[1 := a, 2 := b], [], 3);
      var r := Update(reg, "g", "2", UpdateBody(Some("hi"), None, "u"), true);
      && WellFormed(reg) && NamesUnique(reg)
      && r.response.Reply?
      && !NamesUnique(r.registry)
  {
    var a := Snippet(1, "g", "hi", "hello", "u", "c1");
    var b := Snippet(2, "g", "bye", "goodbye", "u", "c2");
    var reg := Registry(map[1 := a, 2 := b], [], 3);
    assert ParseInt("2") == Some(2) by {
      ParseShow(2, "");
      assert Show(2) + "" == "2";
    }
    var r := Update(reg, "g", "2", UpdateBody(Some("hi"), None, "u"), true);
    assert r.registry.snippets[1].name == r.registry.snippets[2].name;
  }
}

=== FILE: Wrappers.dfy ===
/** Failure-carrying datatypes shared by the rest of the model. */
module Wrappers {

  /** An optional value: `undefined`/`null` on the JavaScript side. */
  datatype Option<+T> = None | Some(value: T) {

    /** The carried value, or `default` when there is none (JavaScript's `??`). */
    function GetOr(default: T): (r: T)
      ensures Some? ==> r == value
      ensures None? ==> r == default
    {
      match this
      case Some(v) => v
      case None => default
    }
  }

  /** Either a value or an error. */
  datatype Result<+R, +E> = Success(value: R) | Failure(error: E)
}
